=== FILE: README.md ===
# lambdasync `util.js` helpers in Dafny

lambdasync is a command-line tool for AWS Lambda functions: it scaffolds
projects, deploys them, and runs a local development server. Its
`bin/src/util.js` holds a set of small, pure helpers:

- `mustacheLite` fills `{{key}}` placeholders in templates;
- `markdownProperty` writes a bold-label line for terminal output;
- `addInputDefault` adds a saved default to a prompt description;
- `stripLambdaVersion` and `makeLambdaPolicyArn` rewrite Lambda ARNs;
- `parseCommandArgs` turns `key=value` command-line arguments into an object;
- `removeCurrentPath` and `removeFileExtension` trim paths.

This project models those helpers as pure Dafny functions and proves what
they compute.

Layout:

- `wrappers.dfy` — `Option`.
- `js_string.dfy` — module `JsString`: the JavaScript string operations the
  helpers call. These are `indexOf` and `lastIndexOf`; `replace` with a string
  pattern (leftmost occurrence only); `replace` with a global regular
  expression matching one literal text (every occurrence, scanning left to
  right); and `split`/`join`. It also proves that a global replacement is
  split-then-join (`LemmaReplaceAllIsSplitJoin`) and that `split`/`join`
  round-trip (the contract of `Split`).
- `js_value.dfy` — module `JsValue`: JavaScript values (primitives, arrays,
  plain objects, and the built-ins every object inherits from
  `Object.prototype`), with truthiness, `String(v)`, and property lookup
  through the prototype chain (`Get`) or own properties only (`GetOwn`).
  `ToStringThrows` names the values on which `String(v)` throws.
- `util.dfy` — module `Util`: the eight helpers.
- `util_properties.dfy` — module `UtilProperties`: round trips, fold and
  last-wins characterisations, and lemmas about concrete inputs.

Modelling choices:

- Strings are `seq<char>`.
- A JavaScript object is a `map` of its own enumerable properties.
- `Object.keys(data)` order is the order of a sequence of entries.
- `process.cwd()` is the `cwd` parameter of `RemoveCurrentPath`.
- `JSON.parse` is the `parse` parameter of the argument parser: `None`
  means it threw, and the source catches that.
- A helper whose JavaScript version can throw a `TypeError` returns an
  `Option`, and `None` is the throw. `mustacheLite`, `markdownProperty`,
  `addInputDefault` and `parseCommandArgs` convert a value to a string or a
  property key, and that conversion throws on an object whose own
  `toString` is not a function, such as `JSON.parse('{"toString":1}')`,
  and on an array holding one (`JsValue.ToStringThrows`).
- The comment above `parseCommandArgs` (bin/src/util.js:95-96) says
  `['timeout=10']` gives `{timeout: 10}`. As written, the value `10` does
  not start with `[` or `{`, so it is never parsed and the text `'10'` is
  stored; the model follows the code
  (`UtilProperties.LemmaParseCommandArgsTimeoutExample`).
- An omitted argument with a default (`data = {}`, `args = []`,
  `settings = {}`, `path = ''`) is modelled by passing that default value.

## Model

| member | source | states |
|---|---|---|
| Util.MustacheLite | bin/src/util.js:30-36 | The call throws (`None`) exactly when some value's string conversion throws, whether or not its placeholder occurs, because `replace` converts the value first. Otherwise, if no key's `{{key}}` occurs in the template (in particular when `data` is empty), the result is the template itself. |
| UtilProperties.LemmaMustacheLiteSnoc | bin/src/util.js:32-34 | `mustacheLite` is a left fold over the keys in order: one more key means one more global replacement applied to the result so far, and a throw if the earlier keys threw or the new value cannot be converted. |
| UtilProperties.LemmaMustacheLiteReplacesEveryOccurrence | bin/src/util.js:33 | The `g` flag makes one key replace every occurrence: the result is the template split at each `{{key}}` (no piece contains one) and joined with the value's text. A value whose conversion throws makes the call throw. |
| UtilProperties.LemmaMustacheLiteBothOccurrences | bin/src/util.js:33 | For a template `a + {{key}} + b + {{key}}` where neither `a` nor `b` contains `{`, both placeholders are filled, not just the first, when the value converts without throwing. |
| Util.MarkdownProperty | bin/src/util.js:52-57 | The call throws (`None`) exactly when `data` has an own `key` whose value's string conversion throws in `+`. The result is empty exactly when `data` is null/undefined or has no own property `key`. A non-empty result starts with `**label:** `` ` `` and ends with a backtick and a newline. |
| UtilProperties.LemmaMarkdownPropertyRoundTrip | bin/src/util.js:52-57 | When the call does not throw, reading the line back gives exactly `String(data[key])` when the key is present, and nothing when it is absent. |
| Util.AddInputDefault | bin/src/util.js:60-65 | The call throws (`None`) exactly when `inputConfig.name` cannot be converted to a property key. If `defaults[inputConfig.name]` is truthy, the result has the input's keys except `__proto__` (which `Object.assign` sets as the prototype), plus `default`, which holds that value. Otherwise the result equals the input. Either way every other property is unchanged. |
| UtilProperties.LemmaAddInputDefaultIdempotent | bin/src/util.js:60-65 | When it does not throw, applying `addInputDefault` twice gives the same record as applying it once. |
| Util.StripLambdaVersion | bin/src/util.js:84-86 | The result is a prefix of the ARN. It differs from the ARN exactly when the ARN ends in `:` and one or more digits, and then only that colon and those digits are removed. |
| UtilProperties.LemmaStripLambdaVersionRoundTrip | bin/src/util.js:83-86 | Stripping `arn + ':' + digits` gives back `arn`, for any `arn`. |
| UtilProperties.LemmaStripLambdaVersionNotIdempotent | bin/src/util.js:84-86 | `a:1:2` becomes `a:1`, and stripping again gives `a`: the operation is not idempotent. |
| Util.FunctionTailFrom | bin/src/util.js:91 | `/function.*?$/` matches at the leftmost `function` after which no line terminator occurs, or not at all. |
| Util.MakeLambdaPolicyArn | bin/src/util.js:88-93 | The result always ends with `/*/*/*`. An ARN with neither `arn:aws:lambda` nor `function` in it only gains that suffix. |
| UtilProperties.LemmaPolicyArnWithoutFunction | bin/src/util.js:88-93 | For every ARN without `function`, the result is the ARN with its first `arn:aws:lambda` (if any) turned into `arn:aws:execute-api`, plus `/*/*/*`. |
| UtilProperties.LemmaPolicyArnOfSplit | bin/src/util.js:88-93 | For every ARN `head + 'function' + rest` where `head` has no `function` and `rest` is one line, the result is `head` with its first `arn:aws:lambda` rewritten, then the API id, then `/*/*/*`. The matched `function` and everything after it are replaced, including an `arn:aws:lambda` inside `rest`. |
| UtilProperties.LemmaPolicyArnOfFunctionArn | bin/src/util.js:88-93 | `arn:aws:lambda:R:A:function:NAME` (version or not) becomes `arn:aws:execute-api:R:A:` + id + `/*/*/*`: the text before `function` is kept and the rest is replaced by the API id. |
| Util.ArgParts | bin/src/util.js:99-102 | When an argument is used, its key and value are non-empty, contain no `=`, and the argument starts with `key=value`. |
| UtilProperties.LemmaArgPartsOf | bin/src/util.js:99-102 | The key is the text before the first `=` and the value the text before the second; anything after a second `=` is dropped. |
| UtilProperties.LemmaArgPartsSkipped | bin/src/util.js:99-102 | The arguments `=x`, `k`, `k=` and `k==x` are skipped: their key or value is empty or missing. |
| Util.ArgValue | bin/src/util.js:103-110 | A value text starting with `[` or `{` goes to `JSON.parse`. If that throws, the text is kept. If it succeeds, looking up `settings[value]` throws exactly when the parsed value cannot be converted to a property key; otherwise the parsed value is stored unless `settings` has a truthy entry under its string form, which is then stored instead. Any other text is replaced by a truthy `settings[text]` and otherwise kept. |
| Util.LemmaParseArgsSnoc | bin/src/util.js:98-112 | The `reduce` is a left fold: parsing `args + [a]` is one more step after parsing `args`, and throws if parsing `args` threw. |
| Util.ParseCommandArgs | bin/src/util.js:97-113 | The call throws (`None`) exactly when some used argument's parsed value cannot be converted to a property key (the conversion is outside the `try`). Otherwise a key is in the result exactly when some used argument names it, `__proto__` never is, and its value is the value of the last such argument. |
| UtilProperties.LemmaParseCommandArgsParsesJson | bin/src/util.js:103-110 | With no settings, `key=[…]` or `key={…}` that `JSON.parse` accepts throws when the parsed value cannot be converted (`{"toString":1}`). Otherwise it stores the parsed value, not the text, or the inherited built-in when the parsed value's string form names an `Object.prototype` member. |
| UtilProperties.LemmaParseCommandArgsKeepsUnparsable | bin/src/util.js:103-110 | With no settings, `key=[…]` or `key={…}` that `JSON.parse` rejects stores the text: the error is swallowed. |
| UtilProperties.LemmaParseCommandArgsKeepsDigits | bin/src/util.js:103-110 | With no settings, `key=digits` stores the digits as a string: only a value starting with `[` or `{` goes to `JSON.parse`. |
| UtilProperties.LemmaParseCommandArgsTimeoutExample | bin/src/util.js:95-110 | The commented example `['timeout=10']` gives `{timeout: '10'}` with the string `'10'`, not the number `10` the comment shows. |
| UtilProperties.LemmaParseCommandArgsOverwrite | bin/src/util.js:110 | A later `key=value` overwrites that key and leaves every other entry as it was; the call throws when the earlier arguments or the new value throw. |
| UtilProperties.LemmaParseCommandArgsEmpty | bin/src/util.js:97-98 | No arguments give the empty object. |
| UtilProperties.LemmaInheritedNameReplacesValue | bin/src/util.js:110 | As written, with empty settings, `key=NAME` where NAME is a member of `Object.prototype` (`toString`, `constructor`, …) stores that inherited built-in instead of the text NAME. |
| Util.ParseCommandArgsOwn | bin/src/util.js:110 | With own-property lookups of `settings`, the same throw condition and last-argument-wins characterisation hold. |
| UtilProperties.LemmaOwnLookupKeepsText | bin/src/util.js:110 | With own-property lookups and empty settings, `key=text` (text not starting with `[` or `{`) stores the text itself, `toString` included. |
| UtilProperties.LemmaOwnLookupStoresNoBuiltin | bin/src/util.js:110 | With own-property lookups, if settings and parse results are plain data and the call does not throw, no stored value is an inherited built-in. |
| Util.RemoveCurrentPath | bin/src/util.js:215-218 | A path without `cwd + '/'` is returned unchanged (including the default `''`). Otherwise exactly `|cwd| + 1` characters are removed. |
| UtilProperties.LemmaRemoveCurrentPathOfJoined | bin/src/util.js:215-218 | `removeCurrentPath(cwd + '/' + rel)` is `rel`. |
| UtilProperties.LemmaRemoveCurrentPathFirstOnly | bin/src/util.js:217 | Only the first `cwd + '/'` is removed, wherever it occurs. Later occurrences stay. |
| Util.RemoveFileExtension | bin/src/util.js:220-237 | A path ending in `.js` loses exactly those three characters. Any other path, with another extension, a differently-cased one, or no dot, is unchanged. |
| UtilProperties.LemmaRemoveFileExtensionRoundTrip | bin/src/util.js:220-237 | Removing the extension of `base + '.js'` gives `base`, for any `base`. |
| UtilProperties.LemmaRemoveFileExtensionNotIdempotent | bin/src/util.js:223-235 | `a.js.js` becomes `a.js` and then `a`: only one extension goes at a time. |

## Left out

- `promisedExec`, `awsPromise`, `functionExists`, `npmInstall`
  (bin/src/util.js:18-27, 68-81, 115-130, 194-204): child processes and AWS
  SDK callbacks.
- `markdown`, `handleGenericFailure`, `logger`, `logMessage`
  (bin/src/util.js:41-47, 155-172): file reads, the `marked` terminal
  renderer, console output.
- `copyPackageJson`, `copyNodemonJson` (bin/src/util.js:132-146): file
  reads and writes around `mustacheLite`, which is modelled.
- `hashPackageDependencies` (bin/src/util.js:148-153): MD5 from the
  `crypto` library.
- `formatTimestamp`, `isDate` (bin/src/util.js:174-184, 210-213): `Date` objects and
  the local time zone.
- `delay`, `startWith` (bin/src/util.js:186-192): timers and promises.
- `ignoreData` (bin/src/util.js:206-208): returns a fresh empty object.
- `makeAbsolutePath` (bin/src/util.js:239-247): Node's `path.isAbsolute`
  and `path.join` normalisation.
- bin/src/devserver/index.js: Express wiring, fixed no-cache headers, and a
  call to the handler. The request/response adapter it loads
  (`./express-compat`) is not part of this model.
- bin/src/scaffold.js, bin/src/aws.js and the project template: file system,
  npm and AWS SDK configuration.
- Numbers are integers. `NaN`, fractions, exponents and `-0` are not
  modelled, so their string forms are not either.
- `Num(n)` is unbounded, but a JavaScript number is a double. `Num(n)`
  stands for a JavaScript number only when |n| < 10^21 and a double holds
  n exactly (every |n| <= 2^53 does). Beyond 10^21 JavaScript writes the
  number with an exponent (`String(1e21)` is `1e+21`), while `IntToString`
  keeps writing digits. This affects every string conversion of a number:
  `mustacheLite` and `markdownProperty` values, and the property key made
  from a parsed array holding numbers in `parseCommandArgs`.
- An object whose own `toString` or `valueOf` is a built-in function is
  converted here as if it had neither: `[object Object]`, or a throw when
  its own `toString` is not a function. JavaScript would call those
  functions. `JSON.parse` never produces such an object, and none of the
  helpers builds one. Getters and `Symbol.toPrimitive` are not modelled.
- Object identity is not modelled: `addInputDefault` returning the same
  object is value equality here.
- `parseCommandArgs`'s result is a map, so property insertion order is not
  modelled. Assigning `__proto__` is modelled as adding no own property; the
  prototype change it causes is not modelled.
- Util.AddInputDefault: copying an own `__proto__` is modelled as dropping
  it; the copy's changed prototype (which later lookups on it would see) is
  not modelled.
- A thrown `TypeError` is `None`; its message is not modelled.
- `markdownProperty` with a truthy primitive as `data` (a boxed string has
  own index properties) is not modelled: `data` is an object, null or
  undefined.
- JavaScript strings are UTF-16 code units; here they are Unicode scalar
  values. Leftmost matching agrees on well-formed text.
- Util.MustacheLite: requires every key to be matched literally by
  `new RegExp('{{' + key + '}}', 'g')`. That means no regular-expression
  syntax character, and not a quantifier body such as `1` or `1,2`. With
  such a key, `{{1}}` reads as a `{` quantified by `{1}` followed by one `}`,
  so it matches `{}` and not `{{1}}`. It also requires no value's text to
  contain `$`, which `replace` would read as a substitution pattern. It also
  requires no value to be a function (a built-in inherited from
  `Object.prototype`), because `replace` calls such a function and inserts
  its result instead of its text.
- Util.MakeLambdaPolicyArn: requires `apiGatewayId` to contain no `$`, for
  the same reason.

## Findings

| source | as written | input that shows it | evidently intended | confidence | as-written member | corrected member |
|---|---|---|---|---|---|---|
| bin/src/util.js:110 | `settings[valueKey]` reads through the prototype chain, so a value that names an `Object.prototype` member is truthy even when `settings` has no such entry | `parseCommandArgs(['name=toString'], {})` stores the built-in `toString` function under `name` | look only at `settings`' own properties, so `name` stays `'toString'` | medium, not executed | UtilProperties.LemmaInheritedNameReplacesValue (about Util.ParseCommandArgs) | Util.ParseCommandArgsOwn, with UtilProperties.LemmaOwnLookupStoresNoBuiltin and UtilProperties.LemmaOwnLookupKeepsText |

=== FILE: js_string.dfy ===
/**
  The parts of JavaScript's `String.prototype` (and `Array.prototype.join`)
  that the helpers rely on, for strings as sequences of characters:
  - `indexOf` and `lastIndexOf`;
  - `replace` with a string pattern, which replaces the leftmost occurrence only;
  - `replace` with a global regular expression that matches one literal text,
    which replaces every occurrence found scanning left to right, resuming
    after each match;
  - `split` with a non-empty separator, and `join`.
  Replacement texts are inserted literally: the `$` substitution patterns of
  `replace` are ruled out by the callers' preconditions.
 */
module JsString {
  import opened Wrappers

  /** `pat` occurs in `s` starting at index `i`. */
  predicate OccursAt(s: string, pat: string, i: nat) {
    i + |pat| <= |s| && s[i..i + |pat|] == pat
  }

  predicate StartsWith(s: string, prefix: string) {
    |prefix| <= |s| && s[..|prefix|] == prefix
  }

  predicate EndsWith(s: string, suffix: string) {
    |suffix| <= |s| && s[|s| - |suffix|..] == suffix
  }

  predicate IsDigit(c: char) {
    '0' <= c <= '9'
  }

  /** A non-empty run of ASCII digits: what the regular expression `[0-9]+` matches. */
  predicate AllDigits(s: string) {
    |s| > 0 && forall i :: 0 <= i < |s| ==> IsDigit(s[i])
  }

  /** The leftmost occurrence of `pat` at or after index `from`. */
  function IndexOfFrom(s: string, pat: string, from: nat): (r: Option<nat>)
    ensures r.Some? ==> from <= r.value && OccursAt(s, pat, r.value)
    ensures r.Some? ==> forall j: nat :: from <= j < r.value ==> !OccursAt(s, pat, j)
    ensures r.None? ==> forall j: nat :: from <= j ==> !OccursAt(s, pat, j)
    decreases |s| - from
  {
    if |s| < from + |pat| then None
    else if OccursAt(s, pat, from) then Some(from)
    else IndexOfFrom(s, pat, from + 1)
  }

  /** `s.indexOf(pat)`, with `None` for JavaScript's `-1`. */
  function IndexOf(s: string, pat: string): (r: Option<nat>)
    ensures r.Some? ==> OccursAt(s, pat, r.value)
    ensures r.Some? ==> forall j: nat :: j < r.value ==> !OccursAt(s, pat, j)
    ensures r.None? ==> forall j: nat :: !OccursAt(s, pat, j)
  {
    IndexOfFrom(s, pat, 0)
  }

  predicate Contains(s: string, pat: string) {
    IndexOf(s, pat).Some?
  }

  /** `s.lastIndexOf(c)` for a one-character pattern. */
  function LastIndexOf(s: string, c: char): (r: Option<nat>)
    ensures r.Some? ==> r.value < |s| && s[r.value] == c
    ensures r.Some? ==> forall j :: r.value < j < |s| ==> s[j] != c
    ensures r.None? ==> forall j :: 0 <= j < |s| ==> s[j] != c
    decreases |s|
  {
    if |s| == 0 then None
    else if s[|s| - 1] == c then Some(|s| - 1)
    else LastIndexOf(s[..|s| - 1], c)
  }

  /** `s.replace(pat, rep)` with a string pattern: only the leftmost occurrence is replaced. */
  function ReplaceFirst(s: string, pat: string, rep: string): string {
    match IndexOf(s, pat)
    case None => s
    case Some(i) => s[..i] + rep + s[i + |pat|..]
  }

  /**
    `s.replace(re, rep)` where `re` is a global regular expression matching
    exactly the non-empty text `pat`.
   */
  function ReplaceAll(s: string, pat: string, rep: string): string
    requires |pat| > 0
    decreases |s|
  {
    match IndexOf(s, pat)
    case None => s
    case Some(i) => s[..i] + rep + ReplaceAll(s[i + |pat|..], pat, rep)
  }

  /** `parts.join(sep)`. */
  function Join(parts: seq<string>, sep: string): string {
    if |parts| == 0 then ""
    else if |parts| == 1 then parts[0]
    else parts[0] + sep + Join(parts[1..], sep)
  }

  /**
    `s.split(sep)` for a non-empty separator: the pieces between the
    occurrences of `sep` found scanning left to right. Joining them back with
    `sep` gives `s`, and no piece contains `sep`.
   */
  function Split(s: string, sep: string): (parts: seq<string>)
    requires |sep| > 0
    ensures |parts| > 0
    ensures forall k :: 0 <= k < |parts| ==> !Contains(parts[k], sep)
    ensures Join(parts, sep) == s
    decreases |s|
  {
    match IndexOf(s, sep)
    case None => [s]
    case Some(i) =>
      LemmaNoOccurrenceBeforeFirst(s, sep, i);
      var rest := Split(s[i + |sep|..], sep);
      assert s == s[..i] + sep + s[i + |sep|..];
      assert ([s[..i]] + rest)[1..] == rest;
      [s[..i]] + rest
  }

  /** An occurrence inside a prefix of `s` is an occurrence in `s`. */
  lemma LemmaOccursInPrefix(s: string, n: nat, pat: string, j: nat)
    requires n <= |s|
    requires OccursAt(s[..n], pat, j)
    ensures OccursAt(s, pat, j)
  {
    assert s[..n][j..j + |pat|] == s[j..j + |pat|];
  }

  /** Occurrences in a suffix of `s` are the occurrences in `s` shifted by the suffix's start. */
  lemma LemmaOccursInSuffix(s: string, m: nat, pat: string, j: nat)
    requires m <= |s|
    ensures OccursAt(s[m..], pat, j) <==> OccursAt(s, pat, m + j)
  {
    if j + |pat| <= |s| - m {
      assert s[m..][j..j + |pat|] == s[m + j..m + j + |pat|];
    }
  }

  /** The text before the leftmost occurrence of `pat` does not contain `pat`. */
  lemma LemmaNoOccurrenceBeforeFirst(s: string, pat: string, i: nat)
    requires |pat| > 0
    requires IndexOf(s, pat) == Some(i)
    ensures !Contains(s[..i], pat)
  {
    if Contains(s[..i], pat) {
      var j := IndexOf(s[..i], pat).value;
      LemmaOccursInPrefix(s, i, pat, j);
    }
  }

  /** A text without `pat` has no `pat` in any prefix or suffix. */
  lemma LemmaNotContainsSlices(s: string, pat: string, i: nat, m: nat)
    requires !Contains(s, pat)
    requires i <= |s| && m <= |s|
    ensures !Contains(s[..i], pat) && !Contains(s[m..], pat)
  {
    forall j: nat
      ensures !OccursAt(s[..i], pat, j) && !OccursAt(s[m..], pat, j)
    {
      assert !OccursAt(s, pat, j) && !OccursAt(s, pat, m + j);
      if j + |pat| <= i {
        assert s[..i][j..j + |pat|] == s[j..j + |pat|];
      }
      LemmaOccursInSuffix(s, m, pat, j);
    }
  }

  /** An occurrence anywhere makes `Contains` hold. */
  lemma LemmaContainsAt(s: string, pat: string, j: nat)
    requires OccursAt(s, pat, j)
    ensures Contains(s, pat)
  {
  }

  /** A one-character text occurs exactly where that character is. */
  lemma LemmaNotContainsChar(s: string, c: char)
    requires !Contains(s, [c])
    ensures c !in s
  {
    if c in s {
      var j :| 0 <= j < |s| && s[j] == c;
      assert s[j..j + 1] == [c];
      LemmaContainsAt(s, [c], j);
    }
  }

  /**
    An occurrence of `pat` cannot straddle a character that `pat` does not
    contain: if neither side contains `pat`, neither does the whole.
   */
  lemma LemmaNotContainsAcross(x: string, c: char, y: string, pat: string)
    requires c !in pat
    requires !Contains(x, pat) && !Contains(y, pat)
    ensures !Contains(x + [c] + y, pat)
  {
    var s := x + [c] + y;
    if Contains(s, pat) {
      var q := IndexOf(s, pat).value;
      if q + |pat| <= |x| {
        assert s[..|x|] == x;
        assert x[q..q + |pat|] == s[q..q + |pat|];
        LemmaContainsAt(x, pat, q);
      } else if q >= |x| + 1 {
        assert s[|x| + 1..] == y;
        LemmaOccursInSuffix(s, |x| + 1, pat, q - |x| - 1);
        LemmaContainsAt(y, pat, q - |x| - 1);
      } else {
        LemmaCharOfOccurrence(s, pat, q, |x|);
      }
    }
  }

  /** Every character covered by an occurrence of `pat` is a character of `pat`. */
  lemma LemmaCharOfOccurrence(s: string, pat: string, q: nat, k: nat)
    requires OccursAt(s, pat, q)
    requires q <= k < q + |pat|
    ensures s[k] in pat
  {
    assert s[k] == s[q..q + |pat|][k - q];
  }

  /**
    The `split`/`join` reading of a global replacement: replacing every
    occurrence of `pat` by `rep` is splitting at `pat` and joining with `rep`.
   */
  lemma {:induction false} LemmaReplaceAllIsSplitJoin(s: string, pat: string, rep: string)
    requires |pat| > 0
    ensures ReplaceAll(s, pat, rep) == Join(Split(s, pat), rep)
    decreases |s|
  {
    match IndexOf(s, pat)
    case None =>
    case Some(i) =>
      var t := s[i + |pat|..];
      LemmaReplaceAllIsSplitJoin(t, pat, rep);
      var parts := Split(s, pat);
      assert parts == [s[..i]] + Split(t, pat);
      assert parts[1..] == Split(t, pat);
  }

  /**
    The global replacement, one match at a time: when `pat` first occurs
    right after `a`, the result is `a + rep` followed by the replacement
    of the rest.
   */
  lemma LemmaReplaceAllAt(a: string, pat: string, b: string, rep: string)
    requires |pat| > 0
    requires forall j: nat :: j < |a| ==> !OccursAt(a + pat + b, pat, j)
    ensures ReplaceAll(a + pat + b, pat, rep) == a + rep + ReplaceAll(b, pat, rep)
  {
    var s := a + pat + b;
    assert s[|a|..|a| + |pat|] == pat;
    assert OccursAt(s, pat, |a|);
    assert IndexOf(s, pat) == Some(|a|);
    assert s[..|a|] == a;
    assert s[|a| + |pat|..] == b;
  }

  /** No occurrence of `pat` can start inside a text lacking `pat`'s first character. */
  lemma LemmaNoStartWithoutFirstChar(a: string, pat: string, b: string)
    requires |pat| > 0 && pat[0] !in a
    ensures forall j: nat :: j < |a| ==> !OccursAt(a + pat + b, pat, j)
  {
    var s := a + pat + b;
    forall j: nat | j < |a|
      ensures !OccursAt(s, pat, j)
    {
      assert s[j] == a[j];
      assert j + |pat| <= |s| ==> s[j..j + |pat|][0] == s[j];
    }
  }

  /** An occurrence with none before it is the one `indexOf` finds. */
  lemma LemmaLeftmostIs(s: string, pat: string, i: nat)
    requires OccursAt(s, pat, i)
    requires forall j: nat :: j < i ==> !OccursAt(s, pat, j)
    ensures IndexOf(s, pat) == Some(i)
  {
    var r := IndexOf(s, pat);
    assert r.Some?;
    assert r.value <= i;
  }

  /** When `x` contains `pat`, a leftmost replacement in `x + y` happens inside `x`. */
  lemma LemmaReplaceFirstInPrefix(x: string, y: string, pat: string, rep: string)
    requires Contains(x, pat)
    ensures ReplaceFirst(x + y, pat, rep) == ReplaceFirst(x, pat, rep) + y
  {
    var s := x + y;
    var i := IndexOf(x, pat).value;
    assert s[i..i + |pat|] == x[i..i + |pat|];
    assert OccursAt(s, pat, i);
    forall j: nat | j < i
      ensures !OccursAt(s, pat, j)
    {
      assert !OccursAt(x, pat, j);
      assert s[j..j + |pat|] == x[j..j + |pat|];
    }
    LemmaLeftmostIs(s, pat, i);
    assert s[..i] == x[..i];
    assert s[i + |pat|..] == x[i + |pat|..] + y;
  }

  /** When no occurrence starts inside `x`, a leftmost replacement in `x + y` happens inside `y`. */
  lemma LemmaReplaceFirstAfter(x: string, y: string, pat: string, rep: string)
    requires forall j: nat :: j < |x| ==> !OccursAt(x + y, pat, j)
    ensures ReplaceFirst(x + y, pat, rep) == x + ReplaceFirst(y, pat, rep)
  {
    var s := x + y;
    assert s[|x|..] == y;
    forall j: nat | |x| <= j
      ensures OccursAt(s, pat, j) <==> OccursAt(y, pat, j - |x|)
    {
      LemmaOccursInSuffix(s, |x|, pat, j - |x|);
    }
    match IndexOf(y, pat)
    case None =>
      assert IndexOf(s, pat).None?;
    case Some(k) =>
      assert OccursAt(s, pat, |x| + k);
      LemmaLeftmostIs(s, pat, |x| + k);
      assert s[..|x| + k] == x + y[..k];
      assert s[|x| + k + |pat|..] == y[k + |pat|..];
  }

  /**
    `replace` with a string pattern replaces the leftmost occurrence: when
    `pat` first occurs right after `a`, the result is `a + rep + b`.
   */
  lemma LemmaReplaceFirstAt(a: string, pat: string, b: string, rep: string)
    requires forall j: nat :: j < |a| ==> !OccursAt(a + pat + b, pat, j)
    ensures ReplaceFirst(a + pat + b, pat, rep) == a + rep + b
  {
    var s := a + pat + b;
    assert s[|a|..|a| + |pat|] == pat;
    assert OccursAt(s, pat, |a|);
    var i := IndexOf(s, pat).value;
    assert i == |a|;
    assert s[..i] == a;
    assert s[i + |pat|..] == b;
  }
}

=== FILE: js_value.dfy ===
/**
  JavaScript values as the helpers see them: the primitives, arrays, plain
  objects (their own enumerable properties), and the built-ins that every
  plain object inherits from `Object.prototype`. Numbers are integers.
  Property lookup, truthiness, and the string conversion used by `String`,
  `+` and property keys are defined here once, together with the values on
  which that conversion throws.
 */
module JsValue {
  import opened JsString

  datatype Value =
    | Undefined
    | Null
    | Bool(b: bool)
    | Num(n: int)
    | Str(s: string)
    | Arr(items: seq<Value>)
    | Obj(fields: map<string, Value>)
      /** The built-in found under `name` on `Object.prototype`. */
    | Native(name: string)

  /** JavaScript truthiness: `undefined`, `null`, `false`, `0` and `''` are falsy. */
  predicate Truthy(v: Value) {
    match v
    case Undefined => false
    case Null => false
    case Bool(b) => b
    case Num(n) => n != 0
    case Str(s) => s != ""
    case Arr(_) => true
    case Obj(_) => true
    case Native(_) => true
  }

  function DigitChar(d: nat): (c: char)
    requires d < 10
    ensures IsDigit(c)
  {
    "0123456789"[d]
  }

  /** The decimal numeral of a natural number, without leading zeros. */
  function NatToString(n: nat): (r: string)
    ensures AllDigits(r)
    ensures |r| > 1 ==> r[0] != '0'
    decreases n
  {
    if n < 10 then [DigitChar(n)]
    else NatToString(n / 10) + [DigitChar(n % 10)]
  }

  /** The number a run of decimal digits denotes (`0` for the empty run). */
  function DigitsValue(s: string): nat
    requires forall i :: 0 <= i < |s| ==> IsDigit(s[i])
    decreases |s|
  {
    if |s| == 0 then 0
    else
      assert IsDigit(s[|s| - 1]);
      DigitsValue(s[..|s| - 1]) * 10 + (s[|s| - 1] as int - '0' as int)
  }

  /** Reading the numeral of `n` back gives `n`. */
  lemma {:induction false} LemmaNatToStringValue(n: nat)
    ensures DigitsValue(NatToString(n)) == n
    decreases n
  {
    var s := NatToString(n);
    var d := DigitChar(n % 10);
    assert d as int - '0' as int == n % 10 by {
      assert "0123456789"[n % 10] as int == '0' as int + n % 10;
    }
    if n >= 10 {
      LemmaNatToStringValue(n / 10);
      assert s[..|s| - 1] == NatToString(n / 10);
      assert s[|s| - 1] == d;
    }
  }

  function IntToString(n: int): string {
    if n < 0 then "-" + NatToString(-n) else NatToString(n)
  }

  /**
    The text `String(v)`, `+` and property keys make of a value on which the
    conversion does not throw (see `ToStringThrows`). An array joins its
    elements with `,`, writing `null` and `undefined` as nothing; an object
    uses the `toString` it inherits from `Object.prototype`.
   */
  function ToString(v: Value): string {
    match v
    case Undefined => "undefined"
    case Null => "null"
    case Bool(b) => if b then "true" else "false"
    case Num(n) => IntToString(n)
    case Str(s) => s
    case Arr(items) =>
      Join(seq(|items|, i requires 0 <= i < |items| =>
             if items[i].Undefined? || items[i].Null? then "" else ToString(items[i])), ",")
    case Obj(_) => "[object Object]"
    case Native(name) =>
      if name == "__proto__" then "[object Object]"
      else "function " + (if name == "constructor" then "Object" else name) + "() { [native code] }"
  }

  /**
    The string conversion throws a `TypeError` on an object whose own
    `toString` is not a function: the conversion skips it, and the `valueOf`
    inherited from `Object.prototype` returns the object itself, which is not
    a primitive. An array converts its elements, so such an element makes
    the array's conversion throw too. `JSON.parse('{"toString":1}')` gives
    such an object.
   */
  predicate ToStringThrows(v: Value) {
    match v
    case Arr(items) => exists i :: 0 <= i < |items| && ToStringThrows(items[i])
    case Obj(fields) => "toString" in fields && !Callable(fields["toString"])
    case _ => false
  }

  /** The value is a function: every built-in except `__proto__`, which is `Object.prototype` itself. */
  predicate Callable(v: Value) {
    v.Native? && v.name != "__proto__"
  }

  /** The property names every plain object inherits from `Object.prototype`. */
  const ObjectPrototypeNames: set<string> := {
    "constructor", "hasOwnProperty", "isPrototypeOf", "propertyIsEnumerable",
    "toLocaleString", "toString", "valueOf", "__defineGetter__", "__defineSetter__",
    "__lookupGetter__", "__lookupSetter__", "__proto__"
  }

  /** `obj[key]` on a plain object whose own properties are `own`: own first, then `Object.prototype`. */
  function Get(own: map<string, Value>, key: string): (v: Value)
    ensures key in own ==> v == own[key]
    ensures key !in own ==> (Truthy(v) <==> key in ObjectPrototypeNames)
  {
    if key in own then own[key]
    else if key in ObjectPrototypeNames then Native(key)
    else Undefined
  }

  /** `obj[key]` restricted to own properties, as a `hasOwnProperty` guard would read it. */
  function GetOwn(own: map<string, Value>, key: string): (v: Value)
    ensures key in own ==> v == own[key]
    ensures key !in own ==> !Truthy(v)
  {
    if key in own then own[key] else Undefined
  }
}

=== FILE: util.dfy ===
/**
  The pure helpers of lambdasync's `bin/src/util.js`: template substitution,
  markdown property lines, prompt defaults, Lambda ARN rewriting, command
  line argument parsing and path trimming. Strings are sequences of
  characters, JavaScript objects are maps of their own properties, and the
  current directory and `JSON.parse` are parameters.
 */
module Util {
  import opened Wrappers
  import opened JsString
  import opened JsValue

  // ---------------------------------------------------------------------------
  // mustacheLite

  /** The text `{{key}}` that `mustacheLite` replaces. */
  function Placeholder(key: string): string {
    "{{" + key + "}}"
  }

  /** The ECMAScript regular expression syntax characters. */
  predicate IsSyntaxCharacter(c: char) {
    c in "^$\\.*+?()[]{}|"
  }

  /** `key` reads as the body of a braced quantifier: `n`, `n,` or `n,m`. */
  predicate IsQuantifierBody(key: string) {
    var parts := Split(key, ",");
    AllDigits(parts[0]) && (|parts| == 1 || (|parts| == 2 && (parts[1] == "" || AllDigits(parts[1]))))
  }

  /**
    `new RegExp('{{' + key + '}}', 'g')` matches exactly the text
    `{{key}}`: the key has no syntax character, and `{key}` does not read
    as a quantifier applied to the first brace.
   */
  predicate LiteralKey(key: string) {
    (forall i :: 0 <= i < |key| ==> !IsSyntaxCharacter(key[i])) && !IsQuantifierBody(key)
  }

  /**
    A data entry whose key is matched literally and whose value is inserted
    as text: no `$` pattern in it, and not a function (`replace` would call
    a function instead of inserting its text).
   */
  predicate SubstitutableEntry(entry: (string, Value)) {
    && LiteralKey(entry.0)
    && '$' !in ToString(entry.1)
    && !Callable(entry.1)
  }

  /**
    `mustacheLite(template, data)`, where `data` lists the object's own
    properties in `Object.keys` order (an omitted `data` is the empty list).
    For each key in turn, every `{{key}}` of the text built so far is
    replaced by the value's string form. `replace` converts the value before
    it searches, so a value whose conversion throws ends the whole call
    (`None`), whether or not its placeholder occurs. Otherwise a template in
    which no key's placeholder occurs comes back unchanged.
   */
  function MustacheLite(template: string, data: seq<(string, Value)>): (r: Option<string>)
    requires forall i :: 0 <= i < |data| ==> SubstitutableEntry(data[i])
    ensures r.None? <==> exists i :: 0 <= i < |data| && ToStringThrows(data[i].1)
    ensures r.Some? && (forall i :: 0 <= i < |data| ==> !Contains(template, Placeholder(data[i].0))) ==>
              r.value == template
    decreases |data|
  {
    if |data| == 0 then Some(template)
    else if ToStringThrows(data[0].1) then None
    else
      var next := ReplaceAll(template, Placeholder(data[0].0), ToString(data[0].1));
      assert forall i :: 0 <= i < |data| - 1 ==> data[1..][i] == data[i + 1];
      MustacheLite(next, data[1..])
  }

  // ---------------------------------------------------------------------------
  // markdownProperty

  /** The line `markdownProperty` writes for a label and a value text. */
  function PropertyLine(labelText: string, value: string): string {
    "**" + labelText + ":** `" + value + "`\n"
  }

  /**
    `markdownProperty({key, label}, data)`: the bold label and the value in
    code ticks when `data` is an object with an own property `key`; the empty
    string when `data` is null or undefined (`None` for `data`) or lacks the
    key. `None` as the result is the `TypeError` that `+` throws on a value
    whose string conversion throws.
   */
  function MarkdownProperty(key: string, labelText: string, data: Option<map<string, Value>>): (r: Option<string>)
    ensures r.None? <==> data.Some? && key in data.value && ToStringThrows(data.value[key])
    ensures r == Some("") <==> data.None? || key !in data.value
    ensures r.Some? && r.value != "" ==> StartsWith(r.value, "**" + labelText + ":** `") && EndsWith(r.value, "`\n")
  {
    if data.Some? && key in data.value then
      if ToStringThrows(data.value[key]) then None
      else Some(PropertyLine(labelText, ToString(data.value[key])))
    else Some("")
  }

  /** Reads the value text back out of a property line written for `label`. */
  function ReadPropertyLine(line: string, labelText: string): Option<string> {
    var head := "**" + labelText + ":** `";
    if |head| + 2 <= |line| && StartsWith(line, head) && EndsWith(line, "`\n")
    then Some(line[|head|..|line| - 2])
    else None
  }

  // ---------------------------------------------------------------------------
  // addInputDefault

  /** The default `addInputDefault` looks up: `defaults[inputConfig.name]`. */
  function InputDefault(defaults: map<string, Value>, inputConfig: map<string, Value>): Value
    requires !ToStringThrows(Get(inputConfig, "name"))
  {
    Get(defaults, ToString(Get(inputConfig, "name")))
  }

  /**
    `addInputDefault(defaults, inputConfig)`: when `defaults[inputConfig.name]`
    is truthy, `Object.assign({}, inputConfig, {default})`, a copy with that
    value as `default`; otherwise `inputConfig` as it is. The copy assigns
    each property, so an own `__proto__` sets the copy's prototype and is
    not copied as a property. `None` is the `TypeError` thrown when `name`
    cannot be converted to a property key.
   */
  function AddInputDefault(defaults: map<string, Value>, inputConfig: map<string, Value>)
    : (r: Option<map<string, Value>>)
    ensures r.None? <==> ToStringThrows(Get(inputConfig, "name"))
    ensures r.Some? ==>
              var d := InputDefault(defaults, inputConfig);
              && (Truthy(d) ==> r.value.Keys == inputConfig.Keys - {"__proto__"} + {"default"} && r.value["default"] == d)
              && (!Truthy(d) ==> r.value == inputConfig)
    ensures r.Some? ==> forall k :: k in inputConfig && k != "default" && k != "__proto__" ==>
              k in r.value && r.value[k] == inputConfig[k]
  {
    if ToStringThrows(Get(inputConfig, "name")) then None
    else
      var d := InputDefault(defaults, inputConfig);
      if Truthy(d) then Some((inputConfig - {"__proto__"})["default" := d]) else Some(inputConfig)
  }

  // ---------------------------------------------------------------------------
  // stripLambdaVersion

  /** `arn` ends with a colon followed by a non-empty run of digits. */
  ghost predicate HasVersionSuffix(arn: string) {
    exists i :: 0 <= i < |arn| && arn[i] == ':' && AllDigits(arn[i + 1..])
  }

  /**
    `stripLambdaVersion(arn)`, that is `arn.replace(/:[0-9]+$/, '')`: the
    result is a prefix of `arn`; it is shorter exactly when `arn` ends in
    `:` and digits, and then the removed text is that colon and those digits.
   */
  function StripLambdaVersion(arn: string): (r: string)
    ensures StartsWith(arn, r)
    ensures r != arn ==> arn[|r|] == ':' && AllDigits(arn[|r| + 1..])
    ensures r == arn <==> !HasVersionSuffix(arn)
  {
    match LastIndexOf(arn, ':')
    case None => arn
    case Some(i) =>
      if AllDigits(arn[i + 1..]) then
        assert arn[..i] != arn by { assert |arn[..i]| < |arn|; }
        arn[..i]
      else
        assert !HasVersionSuffix(arn) by {
          forall j | 0 <= j < |arn| && arn[j] == ':'
            ensures !AllDigits(arn[j + 1..])
          {
            if j < i {
              assert arn[j + 1..][i - j - 1] == arn[i];
            }
          }
        }
        arn
  }

  // ---------------------------------------------------------------------------
  // makeLambdaPolicyArn

  predicate IsLineTerminator(c: char) {
    c == '\n' || c == '\r' || c == '\U{2028}' || c == '\U{2029}'
  }

  predicate SingleLine(s: string) {
    forall i :: 0 <= i < |s| ==> !IsLineTerminator(s[i])
  }

  /**
    `/function.*?$/` matches at `p`: `function` starts there and the rest of
    the text has no line terminator, since `.` does not match one and `$`
    (without the `m` flag) is the end of the input.
   */
  predicate TailMatchAt(s: string, p: nat) {
    OccursAt(s, "function", p) && SingleLine(s[p + 8..])
  }

  /** The leftmost match of `/function.*?$/` at or after `from`. */
  function FunctionTailFrom(s: string, from: nat): (r: Option<nat>)
    ensures r.Some? ==> from <= r.value && TailMatchAt(s, r.value)
    ensures r.Some? ==> forall q: nat :: from <= q < r.value ==> !TailMatchAt(s, q)
    ensures r.None? ==> forall q: nat :: from <= q ==> !TailMatchAt(s, q)
    decreases |s| - from
  {
    match IndexOfFrom(s, "function", from)
    case None => None
    case Some(p) => if SingleLine(s[p + 8..]) then Some(p) else FunctionTailFrom(s, p + 1)
  }

  /**
    `makeLambdaPolicyArn({lambdaArn, apiGatewayId})`: the first
    `arn:aws:lambda` becomes `arn:aws:execute-api`, the text from the
    matched `function` to the end becomes the API id, and the wildcard path is
    appended. An ARN with neither marker only gains that path.
   */
  function MakeLambdaPolicyArn(lambdaArn: string, apiGatewayId: string): (r: string)
    requires '$' !in apiGatewayId
    ensures EndsWith(r, "/*/*/*")
    ensures !Contains(lambdaArn, "arn:aws:lambda") && !Contains(lambdaArn, "function") ==>
              r == lambdaArn + "/*/*/*"
  {
    var a := ReplaceFirst(lambdaArn, "arn:aws:lambda", "arn:aws:execute-api");
    var b := match FunctionTailFrom(a, 0)
             case None => a
             case Some(p) => a[..p] + apiGatewayId;
    b + "/*/*/*"
  }

  // ---------------------------------------------------------------------------
  // parseCommandArgs

  /** How `settings[valueKey]` is looked up. */
  datatype Lookup =
    | PrototypeChain  // own properties, then `Object.prototype`, as `util.js` reads it
    | OwnOnly         // own properties only

  function LookupIn(mode: Lookup, settings: map<string, Value>, key: string): Value {
    match mode
    case PrototypeChain => Get(settings, key)
    case OwnOnly => GetOwn(settings, key)
  }

  /**
    The key and the value text of one `key=value` argument: the pieces
    before the first and the second `=`, when both are non-empty; `None`
    when the argument is skipped.
   */
  function ArgParts(arg: string): (r: Option<(string, string)>)
    ensures r.Some? ==> r.value.0 != "" && r.value.1 != ""
    ensures r.Some? ==> '=' !in r.value.0 && '=' !in r.value.1
    ensures r.Some? ==> StartsWith(arg, r.value.0 + "=" + r.value.1)
  {
    var parts := Split(arg, "=");
    if parts[0] == "" || |parts| < 2 || parts[1] == "" then None
    else
      LemmaNotContainsChar(parts[0], '=');
      LemmaNotContainsChar(parts[1], '=');
      LemmaJoinStartsWithTwo(parts, "=");
      Some((parts[0], parts[1]))
  }

  /** A joined list of at least two pieces starts with the first two. */
  lemma LemmaJoinStartsWithTwo(parts: seq<string>, sep: string)
    requires |parts| >= 2
    ensures StartsWith(Join(parts, sep), parts[0] + sep + parts[1])
  {
    var rest := Join(parts[1..], sep);
    assert StartsWith(rest, parts[1]) by {
      if |parts| > 2 {
        assert rest == parts[1] + sep + Join(parts[2..], sep) by {
          assert parts[1..][1..] == parts[2..];
        }
      }
    }
    assert (parts[0] + sep + rest)[..|parts[0] + sep + parts[1]|] == parts[0] + sep + parts[1];
  }

  /**
    The value stored for a value text: the text, or what `parse`
    (`JSON.parse`, `None` when it throws) makes of a text starting with `[`
    or `{`; replaced by `settings[value]` when that is truthy. Reading
    `settings[value]` converts the value to a property key outside the
    `try`, so a parsed value whose conversion throws makes the result `None`.
   */
  function ArgValue(mode: Lookup, text: string, settings: map<string, Value>, parse: string -> Option<Value>)
    : (v: Option<Value>)
    requires text != ""
    ensures text[0] != '[' && text[0] != '{' ==>
              v == Some(if Truthy(LookupIn(mode, settings, text)) then LookupIn(mode, settings, text) else Str(text))
    // a `[` or `{` text that `JSON.parse` rejects is kept as text
    ensures (text[0] == '[' || text[0] == '{') && parse(text).None? ==>
              v == Some(if Truthy(LookupIn(mode, settings, text)) then LookupIn(mode, settings, text) else Str(text))
    // a parsed value is stored unless `settings` has a truthy entry under its string form
    ensures (text[0] == '[' || text[0] == '{') && parse(text).Some? ==>
              var p := parse(text).value;
              && (v.None? <==> ToStringThrows(p))
              && (v.Some? ==>
                    v.value == (if Truthy(LookupIn(mode, settings, ToString(p))) then LookupIn(mode, settings, ToString(p)) else p))
  {
    var given := if text[0] == '[' || text[0] == '{' then
                   match parse(text)
                   case Some(p) => p
                   case None => Str(text)
                 else Str(text);
    if ToStringThrows(given) then None
    else
      var setting := LookupIn(mode, settings, ToString(given));
      Some(if Truthy(setting) then setting else given)
  }

  /** `acc[key] = value`; assigning `__proto__` changes the prototype, not the own properties. */
  function Assign(acc: map<string, Value>, key: string, value: Value): map<string, Value> {
    if key == "__proto__" then acc else acc[key := value]
  }

  /** One step of the `reduce` over the arguments; `None` when it throws. */
  function ApplyArg(mode: Lookup, acc: map<string, Value>, arg: string, settings: map<string, Value>,
                    parse: string -> Option<Value>): Option<map<string, Value>>
  {
    match ArgParts(arg)
    case None => Some(acc)
    case Some((key, text)) =>
      match ArgValue(mode, text, settings, parse)
      case None => None
      case Some(v) => Some(Assign(acc, key, v))
  }

  /** The argument is a `key=value` pair whose value makes `parseCommandArgs` throw. */
  predicate ArgThrows(mode: Lookup, arg: string, settings: map<string, Value>, parse: string -> Option<Value>) {
    ArgParts(arg).Some? && ArgValue(mode, ArgParts(arg).value.1, settings, parse).None?
  }

  /** The `reduce` over `args`, left to right, from the accumulator `acc`; `None` once a step throws. */
  function ParseArgsFrom(mode: Lookup, acc: map<string, Value>, args: seq<string>, settings: map<string, Value>,
                         parse: string -> Option<Value>): Option<map<string, Value>>
    decreases |args|
  {
    if |args| == 0 then Some(acc)
    else
      match ApplyArg(mode, acc, args[0], settings, parse)
      case None => None
      case Some(next) => ParseArgsFrom(mode, next, args[1..], settings, parse)
  }

  /**
    Reference reading of the parsed arguments: the value given by the LAST
    argument that names `key`, scanning from the end; `None` when no
    argument names `key` (or when that argument's value throws).
   */
  function LastArgValue(mode: Lookup, args: seq<string>, key: string, settings: map<string, Value>,
                        parse: string -> Option<Value>): Option<Value>
    decreases |args|
  {
    if |args| == 0 then None
    else
      var last := ArgParts(args[|args| - 1]);
      if last.Some? && last.value.0 == key then ArgValue(mode, last.value.1, settings, parse)
      else LastArgValue(mode, args[..|args| - 1], key, settings, parse)
  }

  /** The parsed arguments agree with the last-argument-wins reading, key by key. */
  ghost predicate LastWins(mode: Lookup, args: seq<string>, settings: map<string, Value>,
                           parse: string -> Option<Value>, r: map<string, Value>)
  {
    && "__proto__" !in r
    && (forall key :: key != "__proto__" ==>
          (key in r <==> LastArgValue(mode, args, key, settings, parse).Some?))
    && (forall key :: key in r ==> r[key] == LastArgValue(mode, args, key, settings, parse).value)
  }

  /**
    The `reduce` with `mode` lookups, from an empty object: it throws exactly
    when some argument's value throws, and otherwise the last argument
    naming a key wins.
   */
  function ParseCommandArgsWith(mode: Lookup, args: seq<string>, settings: map<string, Value>,
                                parse: string -> Option<Value>): (r: Option<map<string, Value>>)
    ensures r.None? <==> exists i :: 0 <= i < |args| && ArgThrows(mode, args[i], settings, parse)
    ensures r.Some? ==> LastWins(mode, args, settings, parse, r.value)
  {
    LemmaParseArgsLastWins(mode, args, settings, parse);
    ParseArgsFrom(mode, map[], args, settings, parse)
  }

  /**
    `parseCommandArgs(args, settings)`: each `key=value` argument sets `key`;
    the last argument naming a key wins; arguments with an empty or missing
    key or value are skipped (an omitted `args` is the empty list, an
    omitted `settings` the empty object). `None` is the `TypeError` thrown
    for a parsed value that cannot be converted to a property key.
   */
  function ParseCommandArgs(args: seq<string>, settings: map<string, Value>, parse: string -> Option<Value>)
    : (r: Option<map<string, Value>>)
    ensures r.None? <==> exists i :: 0 <= i < |args| && ArgThrows(PrototypeChain, args[i], settings, parse)
    ensures r.Some? ==> LastWins(PrototypeChain, args, settings, parse, r.value)
  {
    ParseCommandArgsWith(PrototypeChain, args, settings, parse)
  }

  /** `parseCommandArgs` with `settings` read through own properties only. */
  function ParseCommandArgsOwn(args: seq<string>, settings: map<string, Value>, parse: string -> Option<Value>)
    : (r: Option<map<string, Value>>)
    ensures r.None? <==> exists i :: 0 <= i < |args| && ArgThrows(OwnOnly, args[i], settings, parse)
    ensures r.Some? ==> LastWins(OwnOnly, args, settings, parse, r.value)
  {
    ParseCommandArgsWith(OwnOnly, args, settings, parse)
  }

  /** The `reduce` over `args + [arg]` is one more step after the `reduce` over `args`. */
  lemma {:induction false} LemmaParseArgsSnoc(mode: Lookup, acc: map<string, Value>, args: seq<string>, arg: string,
                                              settings: map<string, Value>, parse: string -> Option<Value>)
    ensures var before := ParseArgsFrom(mode, acc, args, settings, parse);
            ParseArgsFrom(mode, acc, args + [arg], settings, parse)
            == if before.None? then None else ApplyArg(mode, before.value, arg, settings, parse)
    decreases |args|
  {
    if |args| == 0 {
      assert args + [arg] == [arg];
    } else {
      assert (args + [arg])[1..] == args[1..] + [arg];
      match ApplyArg(mode, acc, args[0], settings, parse)
      case None =>
      case Some(next) =>
        LemmaParseArgsSnoc(mode, next, args[1..], arg, settings, parse);
    }
  }

  /** Parsing from an empty object throws exactly on a throwing argument and otherwise agrees with the last-argument-wins reading. */
  lemma {:induction false} LemmaParseArgsLastWins(mode: Lookup, args: seq<string>, settings: map<string, Value>,
                                                  parse: string -> Option<Value>)
    ensures var r := ParseArgsFrom(mode, map[], args, settings, parse);
            && (r.None? <==> exists i :: 0 <= i < |args| && ArgThrows(mode, args[i], settings, parse))
            && (r.Some? ==> LastWins(mode, args, settings, parse, r.value))
    decreases |args|
  {
    if |args| > 0 {
      var init := args[..|args| - 1];
      var arg := args[|args| - 1];
      assert args == init + [arg];
      LemmaParseArgsLastWins(mode, init, settings, parse);
      LemmaParseArgsSnoc(mode, map[], init, arg, settings, parse);
      var before := ParseArgsFrom(mode, map[], init, settings, parse);
      if before.None? {
        var i :| 0 <= i < |init| && ArgThrows(mode, init[i], settings, parse);
        assert args[i] == init[i];
      } else {
        assert forall i :: 0 <= i < |init| ==> args[i] == init[i];
        if ApplyArg(mode, before.value, arg, settings, parse).Some? {
          LemmaLastWinsStep(mode, init, arg, settings, parse, before.value);
        }
      }
    }
  }

  /** One more argument that does not throw keeps the last-argument-wins reading. */
  lemma LemmaLastWinsStep(mode: Lookup, init: seq<string>, arg: string, settings: map<string, Value>,
                          parse: string -> Option<Value>, r: map<string, Value>)
    requires LastWins(mode, init, settings, parse, r)
    requires ApplyArg(mode, r, arg, settings, parse).Some?
    ensures LastWins(mode, init + [arg], settings, parse, ApplyArg(mode, r, arg, settings, parse).value)
  {
    var args := init + [arg];
    assert args[..|args| - 1] == init;
    assert args[|args| - 1] == arg;
  }

  // ---------------------------------------------------------------------------
  // removeCurrentPath and removeFileExtension

  /**
    `removeCurrentPath(path)` with `process.cwd()` passed as `cwd`: the
    leftmost `cwd + '/'` is removed, wherever it occurs; a path without it
    (the default `''` among them) comes back unchanged.
   */
  function RemoveCurrentPath(path: string, cwd: string): (r: string)
    ensures !Contains(path, cwd + "/") ==> r == path
    ensures Contains(path, cwd + "/") ==> |r| == |path| - |cwd| - 1
  {
    ReplaceFirst(path, cwd + "/", "")
  }

  /** The file extensions `removeFileExtension` removes. */
  const ExtensionsToRemove: seq<string> := ["js"]

  /**
    `removeFileExtension(path)`: a path ending in `.js` loses those three
    characters; any other path, with another extension or none, comes back
    unchanged.
   */
  function RemoveFileExtension(path: string): (r: string)
    ensures EndsWith(path, ".js") ==> path == r + ".js"
    ensures !EndsWith(path, ".js") ==> r == path
  {
    LemmaLastDotOfJsPath(path);
    match LastIndexOf(path, '.')
    case None => path
    case Some(i) =>
      if path[i + 1..] in ExtensionsToRemove then
        assert path == path[..i] + ".js";
        path[..i]
      else
        path
  }

  /** In a path ending in `.js`, the last dot is the one before `js`. */
  lemma LemmaLastDotOfJsPath(path: string)
    ensures EndsWith(path, ".js") ==> LastIndexOf(path, '.') == Some(|path| - 3) && path[|path| - 2..] == "js"
  {
    if EndsWith(path, ".js") {
      var tail := path[|path| - 3..];
      assert tail == ".js";
      assert path[|path| - 3] == tail[0] && path[|path| - 2] == tail[1] && path[|path| - 1] == tail[2];
      assert path[|path| - 2..] == tail[1..];
    }
  }
}

=== FILE: util_properties.dfy ===
/**
  Properties of the `util.js` helpers that relate several calls or state a
  helper's result for a whole family of inputs: round trips, the left fold
  of `mustacheLite`, the last-argument-wins reading of `parseCommandArgs`,
  and the rewriting of a typical function ARN.
 */
module UtilProperties {
  import opened Wrappers
  import opened JsString
  import opened JsValue
  import opened Util

  // ---------------------------------------------------------------------------
  // mustacheLite

  /**
    `mustacheLite` is a left fold: one more key is one more global
    replacement of the result so far, or a throw when its value cannot be
    converted.
   */
  lemma {:induction false} LemmaMustacheLiteSnoc(template: string, data: seq<(string, Value)>, entry: (string, Value))
    requires forall i :: 0 <= i < |data| ==> SubstitutableEntry(data[i])
    requires SubstitutableEntry(entry)
    ensures forall i :: 0 <= i < |data + [entry]| ==> SubstitutableEntry((data + [entry])[i])
    ensures var before := MustacheLite(template, data);
            MustacheLite(template, data + [entry])
            == if before.None? || ToStringThrows(entry.1) then None
               else Some(ReplaceAll(before.value, Placeholder(entry.0), ToString(entry.1)))
    decreases |data|
  {
    if |data| == 0 {
      assert data + [entry] == [entry];
      assert [entry][1..] == [];
    } else {
      assert (data + [entry])[1..] == data[1..] + [entry];
      if !ToStringThrows(data[0].1) {
        var next := ReplaceAll(template, Placeholder(data[0].0), ToString(data[0].1));
        LemmaMustacheLiteSnoc(next, data[1..], entry);
      }
    }
  }

  /**
    One key replaces EVERY occurrence of its placeholder, not only the first:
    the template is cut at each `{{key}}` (no piece contains one) and the
    pieces are joined with the value's text. A value whose conversion
    throws makes the call throw.
   */
  lemma LemmaMustacheLiteReplacesEveryOccurrence(template: string, key: string, value: Value)
    requires SubstitutableEntry((key, value))
    ensures ToStringThrows(value) ==> MustacheLite(template, [(key, value)]).None?
    ensures !ToStringThrows(value) ==>
              MustacheLite(template, [(key, value)]) == Some(Join(Split(template, Placeholder(key)), ToString(value)))
  {
    LemmaMustacheLiteSingle(template, key, value);
    LemmaReplaceAllIsSplitJoin(template, Placeholder(key), ToString(value));
  }

  /**
    Both placeholders of a key are filled, where a string-pattern `replace`
    would have filled only the first.
   */
  lemma LemmaMustacheLiteBothOccurrences(a: string, b: string, key: string, value: Value)
    requires SubstitutableEntry((key, value))
    requires '{' !in a && '{' !in b
    ensures !ToStringThrows(value) ==>
              MustacheLite(a + Placeholder(key) + b + Placeholder(key), [(key, value)])
              == Some(a + ToString(value) + b + ToString(value))
  {
    var ph := Placeholder(key);
    assert ph[0] == '{';
    LemmaMustacheLiteSingle(a + ph + b + ph, key, value);
    LemmaReplaceAllTwoOccurrences(a, b, ph, ToString(value));
  }

  /** A pattern whose first character occurs in neither piece is replaced at exactly its two placements. */
  lemma LemmaReplaceAllTwoOccurrences(a: string, b: string, ph: string, v: string)
    requires ph != "" && ph[0] !in a && ph[0] !in b
    ensures ReplaceAll(a + ph + b + ph, ph, v) == a + v + b + v
  {
    assert a + ph + b + ph == a + ph + (b + ph);
    LemmaNoStartWithoutFirstChar(a, ph, b + ph);
    LemmaReplaceAllAt(a, ph, b + ph, v);
    assert ReplaceAll(b + ph, ph, v) == b + v by {
      assert b + ph == b + ph + "";
      LemmaNoStartWithoutFirstChar(b, ph, "");
      LemmaReplaceAllAt(b, ph, "", v);
      assert ReplaceAll("", ph, v) == "";
    }
  }

  /** With one key, `mustacheLite` is one global replacement, or a throw. */
  lemma LemmaMustacheLiteSingle(template: string, key: string, value: Value)
    requires SubstitutableEntry((key, value))
    ensures MustacheLite(template, [(key, value)])
         == if ToStringThrows(value) then None else Some(ReplaceAll(template, Placeholder(key), ToString(value)))
  {
    assert [(key, value)][1..] == [];
  }

  // ---------------------------------------------------------------------------
  // markdownProperty

  /** The value text can be read back from the line written for a present key; nothing from an absent one. */
  lemma LemmaMarkdownPropertyRoundTrip(key: string, labelText: string, data: Option<map<string, Value>>)
    ensures var r := MarkdownProperty(key, labelText, data);
            r.Some? ==>
              ReadPropertyLine(r.value, labelText)
              == if data.Some? && key in data.value then Some(ToString(data.value[key])) else None
  {
    var r := MarkdownProperty(key, labelText, data);
    if r.Some? && data.Some? && key in data.value {
      var head := "**" + labelText + ":** `";
      var v := ToString(data.value[key]);
      var line := r.value;
      assert line == head + v + "`\n";
      assert line[..|head|] == head;
      assert line[|line| - 2..] == "`\n";
      assert line[|head|..|line| - 2] == v;
    }
  }

  // ---------------------------------------------------------------------------
  // addInputDefault

  /** Adding the default a second time changes nothing. */
  lemma LemmaAddInputDefaultIdempotent(defaults: map<string, Value>, inputConfig: map<string, Value>)
    ensures var once := AddInputDefault(defaults, inputConfig);
            once.Some? ==> AddInputDefault(defaults, once.value) == once
  {
    var once := AddInputDefault(defaults, inputConfig);
    if once.Some? {
      assert Get(once.value, "name") == Get(inputConfig, "name");
      var d := InputDefault(defaults, inputConfig);
      if Truthy(d) {
        assert (once.value - {"__proto__"})["default" := d] == once.value;
      }
    }
  }

  // ---------------------------------------------------------------------------
  // stripLambdaVersion

  /** Stripping a version appended to an ARN gives the ARN back. */
  lemma LemmaStripLambdaVersionRoundTrip(arn: string, version: string)
    requires AllDigits(version)
    ensures StripLambdaVersion(arn + ":" + version) == arn
  {
    var s := arn + ":" + version;
    assert s[|arn|] == ':' && s[|arn| + 1..] == version;
    assert HasVersionSuffix(s);
    var r := StripLambdaVersion(s);
    assert r == s[..|r|] == arn;
  }

  /** Stripping is not idempotent: only the last version-like suffix goes each time. */
  lemma LemmaStripLambdaVersionNotIdempotent()
    ensures StripLambdaVersion("a:1:2") == "a:1"
    ensures StripLambdaVersion(StripLambdaVersion("a:1:2")) == "a"
  {
    assert AllDigits("2") && AllDigits("1");
    assert "a:1:2" == "a:1" + ":" + "2";
    LemmaStripLambdaVersionRoundTrip("a:1", "2");
    assert "a:1" == "a" + ":" + "1";
    LemmaStripLambdaVersionRoundTrip("a", "1");
  }

  // ---------------------------------------------------------------------------
  // makeLambdaPolicyArn

  /** A text without the letter `f` does not contain `function`. */
  lemma LemmaNoFunctionWithoutF(s: string)
    requires 'f' !in s
    ensures !Contains(s, "function")
  {
    if Contains(s, "function") {
      var q := IndexOf(s, "function").value;
      LemmaCharOfOccurrence(s, "function", q, q);
    }
  }

  /**
    `function` does not overlap itself: when `head` does not contain it, the
    leftmost `function` of `head + "function" + rest` starts right after `head`.
   */
  lemma LemmaNoFunctionBefore(head: string, rest: string)
    requires !Contains(head, "function")
    ensures forall q: nat :: q < |head| ==> !OccursAt(head + "function" + rest, "function", q)
  {
    var s := head + "function" + rest;
    forall q: nat | q < |head|
      ensures !OccursAt(s, "function", q)
    {
      if q + 8 <= |head| {
        if OccursAt(s, "function", q) {
          assert head[q..q + 8] == s[q..q + 8];
          LemmaContainsAt(head, "function", q);
        }
      } else {
        var k := |head| - q;
        assert s[|head|] == 'f';
        assert "function"[k] != 'f';
        assert q + 8 <= |s| ==> s[q..q + 8][k] == s[|head|];
      }
    }
  }

  /** The first step turns the leading `arn:aws:lambda` into `arn:aws:execute-api`. */
  lemma LemmaPolicyArnPrefix(tail: string)
    ensures ReplaceFirst("arn:aws:lambda" + tail, "arn:aws:lambda", "arn:aws:execute-api")
         == "arn:aws:execute-api" + tail
  {
    assert "arn:aws:lambda" + tail == "" + "arn:aws:lambda" + tail;
    LemmaReplaceFirstAt("", "arn:aws:lambda", tail, "arn:aws:execute-api");
  }

  /** The execute-api head of a function ARN contains no `function`. */
  lemma LemmaPolicyArnHead(region: string, account: string)
    requires !Contains(region, "function") && !Contains(account, "function")
    ensures !Contains("arn:aws:execute-api:" + region + ":" + account + ":", "function")
  {
    var c := ':';
    LemmaNoFunctionWithoutF("");
    LemmaNotContainsAcross("", c, region, "function");
    var y1 := "" + [c] + region;
    LemmaNotContainsAcross(y1, c, account, "function");
    var y2 := y1 + [c] + account;
    LemmaNotContainsAcross(y2, c, "", "function");
    var y := y2 + [c] + "";
    LemmaNoFunctionAround("", y);
    assert "" + "arn:aws:execute-api" + y == "arn:aws:execute-api:" + region + ":" + account + ":";
  }

  /** The regular expression `/function.*?$/` matches at the first `function` when the rest is one line. */
  lemma LemmaFunctionTailAfter(head: string, rest: string)
    requires !Contains(head, "function")
    requires SingleLine(rest)
    ensures FunctionTailFrom(head + "function" + rest, 0) == Some(|head|)
  {
    var a := head + "function" + rest;
    LemmaNoFunctionBefore(head, rest);
    assert a[|head|..|head| + 8] == "function";
    assert a[|head| + 8..] == rest;
    assert TailMatchAt(a, |head|);
  }

  /**
    A function ARN `arn:aws:lambda:REGION:ACCOUNT:function:NAME` (with or
    without a version) becomes the execute-api source ARN
    `arn:aws:execute-api:REGION:ACCOUNT:ID` followed by the wildcard
    stage, method and resource path.
   */
  lemma LemmaPolicyArnOfFunctionArn(region: string, account: string, name: string, apiGatewayId: string)
    requires !Contains(region, "function") && !Contains(account, "function")
    requires SingleLine(name)
    requires '$' !in apiGatewayId
    ensures MakeLambdaPolicyArn("arn:aws:lambda:" + region + ":" + account + ":function:" + name, apiGatewayId)
         == "arn:aws:execute-api:" + region + ":" + account + ":" + apiGatewayId + "/*/*/*"
  {
    var lambda, api, c, f := "arn:aws:lambda", "arn:aws:execute-api", ":", "function";
    assert "arn:aws:lambda:" == lambda + c;
    assert "arn:aws:execute-api:" == api + c;
    assert ":function:" == c + f + c;
    var tail := c + region + c + account + (c + f + c) + name;
    LemmaRegroup(lambda, c, region, account, f, name);
    LemmaPolicyArnPrefix(tail);
    var head := api + c + region + c + account + c;
    var rest := c + name;
    assert SingleLine(rest) by {
      assert forall i :: 1 <= i < |rest| ==> rest[i] == name[i - 1];
    }
    LemmaRegroup(api, c, region, account, f, name);
    LemmaPolicyArnHead(region, account);
    LemmaPolicyArnOfRewritten(lambda + tail, head, rest, apiGatewayId);
  }

  /** Regrouping the pieces of a function ARN around its `function` marker. */
  lemma LemmaRegroup(prefix: string, c: string, region: string, account: string, f: string, name: string)
    ensures prefix + (c + region + c + account + (c + f + c) + name)
         == (prefix + c + region + c + account + c) + f + (c + name)
    ensures prefix + c + region + c + account + (c + f + c) + name
         == prefix + (c + region + c + account + (c + f + c) + name)
  {
  }

  /**
    Once the ARN prefix is rewritten to `head + "function" + rest`, with no
    earlier `function` and a one-line `rest`, the policy ARN is `head`, the
    API id, and the wildcard path.
   */
  lemma LemmaPolicyArnOfRewritten(lambdaArn: string, head: string, rest: string, apiGatewayId: string)
    requires ReplaceFirst(lambdaArn, "arn:aws:lambda", "arn:aws:execute-api") == head + "function" + rest
    requires !Contains(head, "function") && SingleLine(rest)
    requires '$' !in apiGatewayId
    ensures MakeLambdaPolicyArn(lambdaArn, apiGatewayId) == head + apiGatewayId + "/*/*/*"
  {
    LemmaFunctionTailAfter(head, rest);
    assert (head + "function" + rest)[..|head|] == head;
  }

  /** `function` cannot appear across an inserted `arn:aws:execute-api`. */
  lemma LemmaNoFunctionAround(x: string, y: string)
    requires !Contains(x, "function") && !Contains(y, "function")
    ensures !Contains(x + "arn:aws:execute-api" + y, "function")
  {
    var e, f := "arn:aws:execute-api", "function";
    var s := x + e + y;
    assert 'f' !in e && 'a' !in f;
    assert s[|x|] == 'a';
    assert s[|x| + |e|..] == y;
    forall q: nat
      ensures !OccursAt(s, f, q)
    {
      if q + 8 <= |x| {
        assert !OccursAt(x, f, q);
        assert x[q..q + 8] == s[q..q + 8];
      } else if q >= |x| + |e| {
        assert !OccursAt(y, f, q - |x| - |e|);
        LemmaOccursInSuffix(s, |x| + |e|, f, q - |x| - |e|);
      } else if q <= |x| {
        assert q + 8 <= |s| ==> s[q..q + 8][|x| - q] == s[|x|] && f[|x| - q] != 'a';
      } else {
        assert q + 8 <= |s| ==> s[q..q + 8][0] == e[q - |x|] && e[q - |x|] != 'f';
      }
    }
  }

  /** Rewriting `arn:aws:lambda` never creates a `function`. */
  lemma LemmaRewriteKeepsNoFunction(s: string)
    requires !Contains(s, "function")
    ensures !Contains(ReplaceFirst(s, "arn:aws:lambda", "arn:aws:execute-api"), "function")
  {
    match IndexOf(s, "arn:aws:lambda")
    case None =>
    case Some(i) =>
      LemmaNotContainsSlices(s, "function", i, i + 14);
      LemmaNoFunctionAround(s[..i], s[i + 14..]);
  }

  /** Rewriting `arn:aws:lambda` keeps a text on one line. */
  lemma LemmaRewriteKeepsSingleLine(s: string)
    requires SingleLine(s)
    ensures SingleLine(ReplaceFirst(s, "arn:aws:lambda", "arn:aws:execute-api"))
  {
    var e := "arn:aws:execute-api";
    assert SingleLine(e);
    match IndexOf(s, "arn:aws:lambda")
    case None =>
    case Some(i) =>
      var r := s[..i] + e + s[i + 14..];
      forall k | 0 <= k < |r|
        ensures !IsLineTerminator(r[k])
      {
        if k < i {
          assert r[k] == s[k];
        } else if k < i + |e| {
          assert r[k] == e[k - i];
        } else {
          assert r[k] == s[k - |e| + 14];
        }
      }
  }

  /**
    For every ARN without `function`, the policy ARN is the ARN with its
    first `arn:aws:lambda` rewritten, followed by the wildcard path.
   */
  lemma LemmaPolicyArnWithoutFunction(lambdaArn: string, apiGatewayId: string)
    requires !Contains(lambdaArn, "function")
    requires '$' !in apiGatewayId
    ensures MakeLambdaPolicyArn(lambdaArn, apiGatewayId)
         == ReplaceFirst(lambdaArn, "arn:aws:lambda", "arn:aws:execute-api") + "/*/*/*"
  {
    var a := ReplaceFirst(lambdaArn, "arn:aws:lambda", "arn:aws:execute-api");
    LemmaRewriteKeepsNoFunction(lambdaArn);
    assert FunctionTailFrom(a, 0).None?;
  }

  /** No `arn:aws:lambda` starts before the end of `head + "function"` when `head` has none. */
  lemma LemmaNoLambdaBeforeRest(head: string, rest: string)
    requires !Contains(head, "arn:aws:lambda")
    ensures forall j: nat :: j < |head + "function"| ==> !OccursAt(head + "function" + rest, "arn:aws:lambda", j)
  {
    var l, f := "arn:aws:lambda", "function";
    var s := head + f + rest;
    assert 'f' !in l && 'a' !in f;
    assert s[|head|] == 'f';
    forall j: nat | j < |head + f|
      ensures !OccursAt(s, l, j)
    {
      if j + 14 <= |head| {
        assert !OccursAt(head, l, j);
        assert head[j..j + 14] == s[j..j + 14];
      } else if j <= |head| {
        assert j + 14 <= |s| ==> s[j..j + 14][|head| - j] == s[|head|] && l[|head| - j] != 'f';
      } else {
        assert j + 14 <= |s| ==> s[j..j + 14][0] == f[j - |head|] && f[j - |head|] != 'a';
      }
    }
  }

  /**
    For every ARN `head + "function" + rest` whose first `function` ends a
    one-line tail, the policy ARN is `head` with its first `arn:aws:lambda`
    rewritten, then the API id, then the wildcard path: the text before the
    matched `function` is kept and the rest is replaced.
   */
  lemma LemmaPolicyArnOfSplit(head: string, rest: string, apiGatewayId: string)
    requires !Contains(head, "function") && SingleLine(rest)
    requires '$' !in apiGatewayId
    ensures MakeLambdaPolicyArn(head + "function" + rest, apiGatewayId)
         == ReplaceFirst(head, "arn:aws:lambda", "arn:aws:execute-api") + apiGatewayId + "/*/*/*"
  {
    var l, e := "arn:aws:lambda", "arn:aws:execute-api";
    var s := head + "function" + rest;
    if Contains(head, l) {
      assert s == head + ("function" + rest);
      LemmaReplaceFirstInPrefix(head, "function" + rest, l, e);
      LemmaRewriteKeepsNoFunction(head);
      LemmaPolicyArnOfRewritten(s, ReplaceFirst(head, l, e), rest, apiGatewayId);
    } else {
      LemmaNoLambdaBeforeRest(head, rest);
      LemmaReplaceFirstAfter(head + "function", rest, l, e);
      LemmaRewriteKeepsSingleLine(rest);
      assert ReplaceFirst(head, l, e) == head;
      LemmaPolicyArnOfRewritten(s, head, ReplaceFirst(rest, l, e), apiGatewayId);
    }
  }

  // ---------------------------------------------------------------------------
  // parseCommandArgs

  /** Splitting at a one-character separator that `x` does not contain cuts `x` off first. */
  lemma LemmaSplitAtFirst(x: string, c: char, y: string)
    requires c !in x
    ensures Split(x + [c] + y, [c]) == [x] + Split(y, [c])
  {
    var s := x + [c] + y;
    assert s[|x|..|x| + 1] == [c];
    forall j: nat | j < |x|
      ensures !OccursAt(s, [c], j)
    {
      assert s[j] == x[j];
      assert j + 1 <= |s| ==> s[j..j + 1][0] == s[j];
    }
    assert OccursAt(s, [c], |x|);
    assert IndexOf(s, [c]) == Some(|x|) by {
      var r := IndexOf(s, [c]);
      assert r.Some?;
      assert !(r.value < |x|);
    }
    assert s[..|x|] == x;
    assert s[|x| + 1..] == y;
  }

  /** A text without the separator character splits into itself alone. */
  lemma LemmaSplitWithout(s: string, c: char)
    requires c !in s
    ensures Split(s, [c]) == [s]
  {
    if IndexOf(s, [c]).Some? {
      var j := IndexOf(s, [c]).value;
      assert s[j] == s[j..j + 1][0];
    }
  }

  /** `key=text` splits at `=` into the key and the text. */
  lemma LemmaSplitPair(key: string, text: string)
    requires '=' !in key && '=' !in text
    ensures Split(key + "=" + text, "=") == [key, text]
  {
    assert key + "=" + text == key + ['='] + text;
    LemmaSplitAtFirst(key, '=', text);
    LemmaSplitWithout(text, '=');
  }

  /** `key=text=rest` splits at `=` into the key, the text, and the pieces of `rest`. */
  lemma LemmaSplitTriple(key: string, text: string, rest: string)
    requires '=' !in key && '=' !in text
    ensures Split(key + "=" + text + "=" + rest, "=") == [key, text] + Split(rest, "=")
  {
    assert key + "=" + text + "=" + rest == key + ['='] + (text + ['='] + rest);
    LemmaSplitAtFirst(key, '=', text + ['='] + rest);
    LemmaSplitAtFirst(text, '=', rest);
  }

  /**
    The key is the text before the first `=` and the value the text between
    the first and the second `=`; anything after a second `=` is dropped.
   */
  lemma LemmaArgPartsOf(key: string, text: string, rest: string)
    requires key != "" && text != ""
    requires '=' !in key && '=' !in text
    ensures ArgParts(key + "=" + text) == Some((key, text))
    ensures ArgParts(key + "=" + text + "=" + rest) == Some((key, text))
  {
    LemmaSplitPair(key, text);
    LemmaSplitTriple(key, text, rest);
  }

  /**
    The arguments that are skipped: an empty key (`=x`), no `=` at all, and
    an empty value (`k=` or `k==x`).
   */
  lemma LemmaArgPartsSkipped(key: string, rest: string)
    requires '=' !in key
    ensures ArgParts("=" + rest) == None
    ensures ArgParts(key) == None
    ensures ArgParts(key + "=") == None
    ensures ArgParts(key + "==" + rest) == None
  {
    assert "=" + rest == "" + ['='] + rest;
    LemmaSplitAtFirst("", '=', rest);
    LemmaSplitWithout(key, '=');
    LemmaSplitPair(key, "");
    assert key + "=" == key + "=" + "";
    LemmaSplitTriple(key, "", rest);
    assert key + "==" + rest == key + "=" + "" + "=" + rest;
  }

  /** A later argument for a key overwrites whatever the earlier ones stored for it. */
  lemma LemmaParseCommandArgsOverwrite(args: seq<string>, key: string, text: string,
                                       settings: map<string, Value>, parse: string -> Option<Value>)
    requires key != "" && text != "" && key != "__proto__"
    requires '=' !in key && '=' !in text
    ensures var before := ParseCommandArgs(args, settings, parse);
            var v := ArgValue(PrototypeChain, text, settings, parse);
            ParseCommandArgs(args + [key + "=" + text], settings, parse)
            == if before.None? || v.None? then None else Some(before.value[key := v.value])
  {
    LemmaArgPartsOf(key, text, "");
    LemmaParseArgsSnoc(PrototypeChain, map[], args, key + "=" + text, settings, parse);
  }

  /**
    A value starting with `[` or `{` is handed to `JSON.parse`, and what it
    parses to is stored (here with no settings). A parsed value that cannot
    be converted to a property key makes the call throw; one whose string
    form names a member of `Object.prototype` (`["toString"]`, say) is
    replaced by that inherited built-in.
   */
  lemma LemmaParseCommandArgsParsesJson(key: string, text: string, parsed: Value, parse: string -> Option<Value>)
    requires key != "" && key != "__proto__" && '=' !in key
    requires text != "" && '=' !in text && (text[0] == '[' || text[0] == '{')
    requires parse(text) == Some(parsed)
    ensures ToStringThrows(parsed) ==> ParseCommandArgs([key + "=" + text], map[], parse).None?
    ensures !ToStringThrows(parsed) ==>
              ParseCommandArgs([key + "=" + text], map[], parse)
              == Some(map[key := if ToString(parsed) in ObjectPrototypeNames then Native(ToString(parsed)) else parsed])
  {
    LemmaArgPartsOf(key, text, "");
    LemmaParseArgsSingle(PrototypeChain, key + "=" + text, map[], parse);
  }

  /** A value starting with `[` or `{` that `JSON.parse` rejects is stored as its text. */
  lemma LemmaParseCommandArgsKeepsUnparsable(key: string, text: string, parse: string -> Option<Value>)
    requires key != "" && key != "__proto__" && '=' !in key
    requires text != "" && '=' !in text && (text[0] == '[' || text[0] == '{')
    requires parse(text).None?
    ensures ParseCommandArgs([key + "=" + text], map[], parse) == Some(map[key := Str(text)])
  {
    LemmaArgPartsOf(key, text, "");
    assert text !in ObjectPrototypeNames;
    assert ArgValue(PrototypeChain, text, map[], parse) == Some(Str(text));
    LemmaParseArgsSingle(PrototypeChain, key + "=" + text, map[], parse);
  }

  /**
    A number given on the command line is stored as its text, not as a
    number: only a value starting with `[` or `{` is handed to `JSON.parse`.
   */
  lemma LemmaParseCommandArgsKeepsDigits(key: string, text: string, parse: string -> Option<Value>)
    requires key != "" && key != "__proto__" && '=' !in key
    requires AllDigits(text)
    ensures ParseCommandArgs([key + "=" + text], map[], parse) == Some(map[key := Str(text)])
  {
    LemmaDigitsArePlainText(text);
    LemmaArgPartsOf(key, text, "");
    assert ArgValue(PrototypeChain, text, map[], parse) == Some(Str(text));
    LemmaParseArgsSingle(PrototypeChain, key + "=" + text, map[], parse);
  }

  /** A run of digits has no `=`, is not handed to `JSON.parse`, and names no `Object.prototype` member. */
  lemma LemmaDigitsArePlainText(text: string)
    requires AllDigits(text)
    ensures '=' !in text && text[0] != '[' && text[0] != '{' && text !in ObjectPrototypeNames
  {
    assert IsDigit(text[0]);
    forall i | 0 <= i < |text| ensures text[i] != '=' {
      assert IsDigit(text[i]);
    }
    forall name | name in ObjectPrototypeNames ensures name[0] != text[0] {
    }
  }

  /** The example in the comment above `parseCommandArgs`: `['timeout=10']` gives `{timeout: '10'}`, a string. */
  lemma LemmaParseCommandArgsTimeoutExample(arg: string, parse: string -> Option<Value>)
    requires arg == "timeout=10"
    ensures ParseCommandArgs([arg], map[], parse) == Some(map["timeout" := Str("10")])
    ensures ParseCommandArgs([arg], map[], parse) != Some(map["timeout" := Num(10)])
  {
    var key, text := "timeout", "10";
    assert AllDigits(text) by { assert IsDigit(text[0]) && IsDigit(text[1]); }
    assert arg == key + "=" + text;
    LemmaParseCommandArgsKeepsDigits(key, text, parse);
    assert map[key := Str(text)][key] != map[key := Num(10)][key];
  }

  /** Empty argument list, empty result. */
  lemma LemmaParseCommandArgsEmpty(settings: map<string, Value>, parse: string -> Option<Value>)
    ensures ParseCommandArgs([], settings, parse) == Some(map[])
  {
    var r := ParseCommandArgs([], settings, parse).value;
    assert forall key :: key !in r by {
      forall key ensures key !in r {
        if key != "__proto__" {
          assert LastArgValue(PrototypeChain, [], key, settings, parse).None?;
        }
      }
    }
  }

  // ---------------------------------------------------------------------------
  // parseCommandArgs: settings read through the prototype chain

  /**
    As written, a value naming a member of `Object.prototype` (such as
    `name=toString`) is replaced by that inherited built-in, although
    `settings` has no such entry.
   */
  lemma LemmaInheritedNameReplacesValue(key: string, name: string, parse: string -> Option<Value>)
    requires key != "" && key != "__proto__" && '=' !in key
    requires name in ObjectPrototypeNames && '=' !in name
    ensures ParseCommandArgs([key + "=" + name], map[], parse) == Some(map[key := Native(name)])
  {
    var arg := key + "=" + name;
    LemmaArgPartsOf(key, name, "");
    assert name[0] != '[' && name[0] != '{';
    assert ArgValue(PrototypeChain, name, map[], parse) == Some(Native(name));
    LemmaParseArgsSingle(PrototypeChain, arg, map[], parse);
  }

  /** With own-property lookups and no settings, an argument keeps its value text. */
  lemma LemmaOwnLookupKeepsText(key: string, text: string, parse: string -> Option<Value>)
    requires key != "" && key != "__proto__" && '=' !in key
    requires text != "" && '=' !in text && text[0] != '[' && text[0] != '{'
    ensures ParseCommandArgsOwn([key + "=" + text], map[], parse) == Some(map[key := Str(text)])
  {
    var arg := key + "=" + text;
    LemmaArgPartsOf(key, text, "");
    assert ArgValue(OwnOnly, text, map[], parse) == Some(Str(text));
    LemmaParseArgsSingle(OwnOnly, arg, map[], parse);
  }

  /** Parsing a single argument is one step of the `reduce` from the empty object. */
  lemma LemmaParseArgsSingle(mode: Lookup, arg: string, settings: map<string, Value>, parse: string -> Option<Value>)
    ensures ParseArgsFrom(mode, map[], [arg], settings, parse) == ApplyArg(mode, map[], arg, settings, parse)
  {
    assert [arg][1..] == [];
  }

  /** A stored value found by the last-argument-wins reading under own lookups is never a built-in. */
  lemma {:induction false} LemmaOwnLastArgValueNotNative(args: seq<string>, key: string, settings: map<string, Value>,
                                                         parse: string -> Option<Value>)
    requires forall k :: k in settings ==> !settings[k].Native?
    requires forall t :: parse(t).Some? ==> !parse(t).value.Native?
    ensures LastArgValue(OwnOnly, args, key, settings, parse).Some? ==>
              !LastArgValue(OwnOnly, args, key, settings, parse).value.Native?
    decreases |args|
  {
    if |args| > 0 {
      var last := ArgParts(args[|args| - 1]);
      if !(last.Some? && last.value.0 == key) {
        LemmaOwnLastArgValueNotNative(args[..|args| - 1], key, settings, parse);
      }
    }
  }

  /**
    With own-property lookups, settings and `JSON.parse` results that are
    plain data give parsed arguments that are plain data: no built-in
    inherited from `Object.prototype` can appear.
   */
  lemma LemmaOwnLookupStoresNoBuiltin(args: seq<string>, settings: map<string, Value>, parse: string -> Option<Value>)
    requires forall k :: k in settings ==> !settings[k].Native?
    requires forall t :: parse(t).Some? ==> !parse(t).value.Native?
    ensures var r := ParseCommandArgsOwn(args, settings, parse);
            r.Some? ==> forall key :: key in r.value ==> !r.value[key].Native?
  {
    var r := ParseCommandArgsOwn(args, settings, parse);
    forall key | r.Some? && key in r.value
      ensures !r.value[key].Native?
    {
      LemmaOwnLastArgValueNotNative(args, key, settings, parse);
    }
  }

  // ---------------------------------------------------------------------------
  // removeCurrentPath

  /** A path inside the current directory loses exactly the directory and its slash. */
  lemma LemmaRemoveCurrentPathOfJoined(cwd: string, relative: string)
    ensures RemoveCurrentPath(cwd + "/" + relative, cwd) == relative
  {
    assert cwd + "/" + relative == "" + (cwd + "/") + relative;
    LemmaReplaceFirstAt("", cwd + "/", relative, "");
  }

  /**
    Only the first occurrence of `cwd + '/'` is removed, wherever it is:
    when `cwd + '/'` first occurs right after `before` (that is,
    `before + cwd` does not contain it), the result is `before + after`,
    whatever `after` holds.
   */
  lemma LemmaRemoveCurrentPathFirstOnly(before: string, cwd: string, after: string)
    requires !Contains(before + cwd, cwd + "/")
    ensures RemoveCurrentPath(before + cwd + "/" + after, cwd) == before + after
  {
    var pat := cwd + "/";
    var s := before + pat + after;
    var t := before + cwd;
    assert s == before + cwd + "/" + after;
    assert s[..|t|] == t;
    forall j: nat | j < |before|
      ensures !OccursAt(s, pat, j)
    {
      if OccursAt(s, pat, j) {
        assert j + |pat| <= |t|;
        assert t[j..j + |pat|] == s[j..j + |pat|];
        LemmaContainsAt(t, pat, j);
      }
    }
    LemmaReplaceFirstAt(before, pat, after, "");
  }

  // ---------------------------------------------------------------------------
  // removeFileExtension

  /** Removing the extension of a path with `.js` appended gives the path back. */
  lemma LemmaRemoveFileExtensionRoundTrip(base: string)
    ensures RemoveFileExtension(base + ".js") == base
  {
    var s := base + ".js";
    assert s[|s| - 3..] == ".js";
    var r := RemoveFileExtension(s);
    assert |r| == |base|;
    assert r == s[..|r|] == base;
  }

  /** Removing extensions is not idempotent: `a.js.js` loses one `.js` at a time. */
  lemma LemmaRemoveFileExtensionNotIdempotent()
    ensures RemoveFileExtension("a.js.js") == "a.js"
    ensures RemoveFileExtension("a.js") == "a"
  {
    assert "a.js.js" == "a.js" + ".js";
    LemmaRemoveFileExtensionRoundTrip("a.js");
    assert "a.js" == "a" + ".js";
    LemmaRemoveFileExtensionRoundTrip("a");
  }
}

=== FILE: wrappers.dfy ===
/** Optional values, standing for JavaScript's "not found" answers (`-1`, `undefined`). */
module Wrappers {

  datatype Option<+T> = None | Some(value: T)

}
